=== FILE: README.md ===
# Helm use case of the KubeVela API server, in Dafny

This project models the Helm use case of the KubeVela API server
(`pkg/apiserver/rest/usecase/helm.go`). The main part is `flattenKey`. It
turns the nested values tree of a Helm chart into one map, keyed by
dot-joined paths: `{a: {b: {c: true}}}` becomes `{"a.b.c": true}`. Around it
sit three facade operations:

- `ListChartVersions` turns helper answers into domain error codes.
- `GetChartValues` flattens a chart's values.
- `ListChartRepo` concatenates the project-scoped and the global repository
  registrations.

Modules:

- `Values` (`values.dfy`) holds the tree. It has three node kinds:
  `Value = Map(seq<Entry>) | Arr(seq<Value>) | Leaf(Scalar)`. A Go
  `map[string]interface{}` becomes an association list of `Entry(key, val)`.
  The module also defines path building: `Join` is `prefix + "." + k`, or
  just `k` when the prefix is empty; `IndexKey` is `base + "." + i`. It also
  defines the *well-keyed* condition: at every level of nested maps, keys
  are distinct, non-empty and contain no `.`.
- `Decimal` (`decimal.dfy`) renders indices in decimal, as `strconv.Itoa`
  does, and parses them back.
- `Flatten` (`flatten.dfy`) gives two definitions of flattening:
  - `Flat`, the reference meaning: each entry's contribution, joined left to
    right, with a later entry overriding an earlier one on a shared path;
  - `FlattenKey`, Go's `flattenKey` loop, which writes into a destination
    map. It is proved to compute `dest + Flat(prefix, src)`. Its inner loop
    over an array's elements is the separate method `StoreItems`.
- `FlattenProps` (`flatten_props.dfy`) proves what the flat map holds:
  which paths are present, what each path holds, and that for a well-keyed
  tree the result does not depend on the order in which the entries of any
  map, nested or not, are visited.
- `FlattenExamples` (`flatten_examples.dfy`) holds worked inputs. Two of them
  show the collisions caused by an empty key and by a dotted key.
- `Helm` (`helm.dfy`) is the facade. The answers of the chart helper and the
  cluster client are inputs, each a `Result` that is either a value or the
  collaborator's error.

Go iterates maps in an unspecified order. In the model, the order of the
association list stands for that iteration order. If two paths render to the
same string, the value that stays depends on this order
(`FlattenExamples.EmptyKeyCollides`, `FlattenExamples.DottedKeyCollides`). So
the positional properties are stated for well-keyed trees. For those trees, the order does not matter at any level.
`FlattenProps.FlatOrderIndependent` reorders the top-level entries only.
`FlattenProps.FlatSameTree` lets every nested map be listed in its own order:
`Values.SameTree` relates two trees that denote the same Go value, and the two
flat maps then have the same paths, holding related values. When arrays hold
only scalars the flat maps are equal (`FlattenProps.FlatOrderIndependentDeep`).
For arbitrary trees, `FlattenProps.FlatLastWriteWins` gives the exact
rule: a path keeps the value of the last entry that writes it.

One might expect every leaf of the tree to appear exactly once in the output.
`flattenKey` guarantees this only when no two paths collide.
`FlattenProps.FlatSize` proves "one path per leaf" for well-keyed trees, and
the collision examples show what happens otherwise.

## Model

| member | source | states |
|---|---|---|
| `Decimal.Itoa` | pkg/apiserver/rest/usecase/helm.go:154 | An array index renders as a non-empty string of decimal digits, with no leading zero unless the index is 0 |
| `Decimal.ParseItoa` | pkg/apiserver/rest/usecase/helm.go:154 | Reading the rendered digits back as a decimal number gives the index again |
| `Decimal.ItoaInjective` | pkg/apiserver/rest/usecase/helm.go:154 | Different indices render as different strings, so array paths never clash |
| `Flatten.IndexKeyInjective` | pkg/apiserver/rest/usecase/helm.go:154 | Below one base path, different indices give different element paths |
| `Flatten.IndexedItemsSpec` | pkg/apiserver/rest/usecase/helm.go:152-155 | An array at `base` writes exactly the paths `base.0` … `base.(n-1)`, the i-th holding element i unchanged; so it writes exactly as many paths as it has elements |
| `Flatten.FlatKeys` | pkg/apiserver/rest/usecase/helm.go:148-159 | A path is in the flat map if and only if some entry of the source map writes it |
| `Flatten.StoreItems` | pkg/apiserver/rest/usecase/helm.go:152-155 | The array loop adds exactly the indexed elements of the array to the destination, overriding only their paths |
| `Flatten.FlattenKey` | pkg/apiserver/rest/usecase/helm.go:144-160 | The loop adds the flattening of `src` to `dest` and nothing else: it never deletes a key, and a key of `dest` that `src` does not write keeps its value |
| `FlattenProps.FlatLastWriteWins` | pkg/apiserver/rest/usecase/helm.go:148-159 | When entries are visited in list order, a path holds the value of the last entry that writes it |
| `FlattenProps.UnderJoinIsBelow` | pkg/apiserver/rest/usecase/helm.go:145-147 | A path at or below `base.k`, with `base` non-empty, continues `base` with a `.` |
| `FlattenProps.FlatEntryUnder` | pkg/apiserver/rest/usecase/helm.go:149-157 | In a well-keyed entry, every path the entry writes is its own path or lies below it; for map and array entries it lies strictly below |
| `FlattenProps.FlatUnder` | pkg/apiserver/rest/usecase/helm.go:145-151 | For a well-keyed map below a non-empty prefix, every written path continues the prefix with a `.` |
| `FlattenProps.SeparateBranches` | pkg/apiserver/rest/usecase/helm.go:145-157 | Two different non-empty, dot-free keys of one map never write the same path |
| `FlattenProps.FlatLookup` | pkg/apiserver/rest/usecase/helm.go:148-159 | In a well-keyed map, every path an entry writes is present in the result with that entry's value |
| `FlattenProps.FlatOwner` | pkg/apiserver/rest/usecase/helm.go:148-159 | In a well-keyed map, a present path at or below an entry's path was written by that entry |
| `FlattenProps.ScalarPlacement` | pkg/apiserver/rest/usecase/helm.go:156-157 | A scalar is stored unchanged at exactly its own path, and nothing else is stored at or below that path |
| `FlattenProps.ArrayPlacement` | pkg/apiserver/rest/usecase/helm.go:152-155 | An array at path p yields exactly the paths `p.i`, one per element, each holding its element whole (nested maps and arrays are not flattened further); p itself is not stored |
| `FlattenProps.EmptyArrayWritesNothing` | pkg/apiserver/rest/usecase/helm.go:153 | In a well-keyed tree, an empty array leaves no path at or below its own path |
| `FlattenProps.MapPlacement` | pkg/apiserver/rest/usecase/helm.go:150-151 | A nested map is flattened below its path, which is extended by its key; its paths keep their values in the result; the map itself is never stored |
| `FlattenProps.JoinWellDotted` | pkg/apiserver/rest/usecase/helm.go:145-147 | Joining a plain key onto an empty or well-formed prefix gives a well-formed path: no leading `.` at the top level, exactly one `.` between prefix and key |
| `FlattenProps.IndexSegmentIsPlain` | pkg/apiserver/rest/usecase/helm.go:154 | A rendered index is a single non-empty path segment without `.` |
| `FlattenProps.FlatWellDotted` | pkg/apiserver/rest/usecase/helm.go:145-157 | Every path in a well-keyed flattening is well formed, and below a non-empty prefix it continues that prefix with one `.` |
| `FlattenProps.FlatEntryWellDotted` | pkg/apiserver/rest/usecase/helm.go:149-157 | Every path a single well-keyed entry writes is well formed |
| `FlattenProps.FlatSize` | pkg/apiserver/rest/usecase/helm.go:148-159 | A well-keyed tree flattens to exactly one path per scalar and per array element |
| `FlattenProps.FlatEntrySize` | pkg/apiserver/rest/usecase/helm.go:149-157 | A well-keyed entry writes exactly as many paths as it has leaves |
| `FlattenProps.FlatOrderIndependent` | pkg/apiserver/rest/usecase/helm.go:148 | Two listings of the same well-keyed top-level entries, in any order, flatten to the same map |
| `FlattenProps.IndexedItemsSameTree` | pkg/apiserver/rest/usecase/helm.go:152-155 | Arrays whose elements denote the same Go values write the same indexed paths, holding elements that denote the same values |
| `FlattenProps.FlatEntrySameTree` | pkg/apiserver/rest/usecase/helm.go:149-157 | In well-keyed entries: two entries with the same key whose values denote the same Go value, whatever order their nested maps list their entries in, write the same paths with values denoting the same Go values |
| `FlattenProps.FlatSameTreeAt` | pkg/apiserver/rest/usecase/helm.go:148-159 | In two well-keyed listings of the same Go map, a path one entry writes is present in both flattenings, through the matching entry of the other listing, with values denoting the same Go value |
| `FlattenProps.FlatSameTree` | pkg/apiserver/rest/usecase/helm.go:148-159 | Two well-keyed listings of the same Go map, with every nested map in any order, flatten to maps with the same paths, whose values denote the same Go values |
| `FlattenProps.FlatOrderIndependentDeep` | pkg/apiserver/rest/usecase/helm.go:148-159 | When arrays hold only scalars, two well-keyed listings of the same Go map, with every nested map in any order, flatten to the same map |
| `FlattenProps.FlatScalarValues` | pkg/apiserver/rest/usecase/helm.go:149-157 | If every array holds only scalars, every stored value is a scalar: no container is stored |
| `FlattenProps.FlatEntryScalarValues` | pkg/apiserver/rest/usecase/helm.go:149-157 | The same, for the paths a single entry writes |
| `FlattenProps.FlatOfFlatIsIdentity` | pkg/apiserver/rest/usecase/helm.go:156-157 | A one-level map of scalars, with any keys, flattens from the empty prefix to itself |
| `FlattenProps.ReflattenIsNoOp` | pkg/apiserver/rest/usecase/helm.go:144-160 | Flattening is idempotent when arrays hold only scalars: the flat map, listed in any order and flattened again, is unchanged |
| `FlattenExamples.NestedMapsJoinKeys` | pkg/apiserver/rest/usecase/helm.go:141-151 | `{a: {b: {c: true}}}` flattens to `{"a.b.c": true}` |
| `FlattenExamples.ArrayIsIndexed` | pkg/apiserver/rest/usecase/helm.go:152-155 | `{x: [1, 2, 3]}` flattens to `{"x.0": 1, "x.1": 2, "x.2": 3}` |
| `FlattenExamples.ArrayElementsAreNotFlattened` | pkg/apiserver/rest/usecase/helm.go:152-155 | `{a: [{b: 1}]}` flattens to `{"a.0": {b: 1}}`, with the map stored whole |
| `FlattenExamples.EmptyKeyCollides` | pkg/apiserver/rest/usecase/helm.go:145-151 | The empty top-level key adds no segment: `{"": {b: 1}, b: 2}` writes "b" twice, and the visiting order decides the value |
| `FlattenExamples.DottedKeyCollides` | pkg/apiserver/rest/usecase/helm.go:148-157 | A key `"a.b"` and a nested `{a: {b: …}}` write the same path, and the visiting order decides the value |
| `Helm.ListChartVersions` | pkg/apiserver/rest/usecase/helm.go:73-84 | A helper error gives exactly `ErrListHelmVersions`; an empty version list gives exactly `ErrChartNotExist`; otherwise the helper's list is returned unchanged and is never empty |
| `Helm.GetChartValues` | pkg/apiserver/rest/usecase/helm.go:86-95 | A helper error gives exactly `ErrGetChartValues`; otherwise the result is the flattening of the values tree from the empty prefix into an empty map |
| `Helm.AppendResponses` | pkg/apiserver/rest/usecase/helm.go:112-114 | Appending registrations keeps the existing responses and adds one response per registration, in order, carrying its "url" data (empty when absent) and its name |
| `Helm.ListChartRepo` | pkg/apiserver/rest/usecase/helm.go:97-139 | A project-listing error (only when a project is named) or else a global-listing error is returned unchanged, with no partial result; otherwise the result holds the project's registrations, then the global ones, each in listing order; with an empty project name only global ones appear |

## Left out

- `NewHelmUsecase` is not modelled. It is process setup: it builds the kube client, stops the process on failure and constructs the cached chart helper.
- `ListChartNames` is not modelled. It only maps a helper error to `ErrListHelmChart` and otherwise passes the list through.
- The chart helper (`ListVersions`, `GetValuesFromChart`) and the cluster client's `List` are not modelled. They fetch over the network and cache; their answers are inputs of the facade operations.
- Label-selector filtering is not modelled. The selectors pick the project or the global registrations and the namespace, but the cluster applies them. The two listings are inputs, assumed already filtered.
- The `secretName` parameter is not modelled: the Go code never uses it, because private repositories are not supported. The `url`, `chartName`, `version` and `skipCache` parameters are not modelled either: they only go to the chart helper and into log messages. The request context is not modelled: it only goes to the cluster client's `List`.
- Logging is not modelled.
- The contents of chart version records are not modelled; `ListChartVersions` is generic over the record type.
- Scalar payloads are simplified to null, bool, int and string. Floating-point numbers are not represented. The flattener never inspects a scalar.
- The map's capacity hint in `GetChartValues` is not modelled.
- A registration's `url` data is modelled as a string. The byte-to-string conversion is not modelled.
- `ListChartRepo` returns an empty sequence where Go returns a nil slice.
- FlattenProps.ScalarPlacement: stated only for well-keyed trees (distinct, non-empty, dot-free keys), because with empty or dotted keys two paths collide and Go's map iteration order decides the outcome; `FlattenProps.FlatLastWriteWins` covers that case for a given order.
- FlattenProps.ArrayPlacement: stated only for well-keyed trees (distinct, non-empty, dot-free keys), because with empty or dotted keys two paths collide and Go's map iteration order decides the outcome; `FlattenProps.FlatLastWriteWins` covers that case for a given order.
- FlattenProps.MapPlacement: stated only for well-keyed trees (distinct, non-empty, dot-free keys), because with empty or dotted keys two paths collide and Go's map iteration order decides the outcome; `FlattenProps.FlatLastWriteWins` covers that case for a given order.
- FlattenProps.FlatLookup: stated only for well-keyed trees (distinct, non-empty, dot-free keys), because with empty or dotted keys two paths collide and Go's map iteration order decides the outcome; `FlattenProps.FlatLastWriteWins` covers that case for a given order.
- FlattenProps.FlatOwner: stated only for well-keyed trees (distinct, non-empty, dot-free keys), because with empty or dotted keys two paths collide and Go's map iteration order decides the outcome; `FlattenProps.FlatLastWriteWins` covers that case for a given order.
- FlattenProps.FlatSize: stated only for well-keyed trees (distinct, non-empty, dot-free keys), because with empty or dotted keys two paths collide and Go's map iteration order decides the outcome; `FlattenProps.FlatLastWriteWins` covers that case for a given order.
- FlattenProps.FlatOrderIndependent: stated only for well-keyed trees (distinct, non-empty, dot-free keys), because with empty or dotted keys two paths collide and Go's map iteration order decides the outcome; `FlattenProps.FlatLastWriteWins` covers that case for a given order. It reorders the top-level entries only; `FlattenProps.FlatSameTree` and `FlattenProps.FlatOrderIndependentDeep` cover reordering at every level.
- FlattenProps.FlatSameTree: stated only for well-keyed trees, for the same reason. Arrays stored whole may list their nested maps in other orders, so it gives related values, not equal ones; `FlattenProps.FlatOrderIndependentDeep` gives equality when arrays hold only scalars.
- FlattenProps.FlatOrderIndependentDeep: stated only for well-keyed trees whose arrays hold only scalars, for the reasons given for `FlattenProps.FlatSameTree`.
- FlattenProps.FlatEntryUnder: stated only for well-keyed trees (distinct, non-empty, dot-free keys), because with empty or dotted keys two paths collide and Go's map iteration order decides the outcome; `FlattenProps.FlatLastWriteWins` covers that case for a given order. With an empty key, `{"": {b: 1}}` writes "b", which is not below the entry's own path (`FlattenExamples.EmptyKeyCollides`).
- FlattenProps.EmptyArrayWritesNothing: stated only for well-keyed trees (distinct, non-empty, dot-free keys), because with empty or dotted keys two paths collide and Go's map iteration order decides the outcome; `FlattenProps.FlatLastWriteWins` covers that case for a given order. In `{a: [], "a.0": 1}` the dotted key writes below the empty array's path.
- FlattenProps.FlatEntrySize: stated only for well-keyed trees (distinct, non-empty, dot-free keys), because with empty or dotted keys two paths collide and Go's map iteration order decides the outcome; `FlattenProps.FlatLastWriteWins` covers that case for a given order. `{a: {"x.y": 1, x: {y: 2}}}` has two leaves but writes the one path "a.x.y".
- FlattenProps.FlatEntrySameTree: stated only for well-keyed trees (distinct, non-empty, dot-free keys), because with empty or dotted keys two paths collide and Go's map iteration order decides the outcome; `FlattenProps.FlatLastWriteWins` covers that case for a given order. `{k: {"a.b": 1, a: {b: 2}}}` stores 1 or 2 at "k.a.b" depending on the order.
- FlattenProps.FlatSameTreeAt: stated only for well-keyed trees (distinct, non-empty, dot-free keys), because with empty or dotted keys two paths collide and Go's map iteration order decides the outcome; `FlattenProps.FlatLastWriteWins` covers that case for a given order.
- Go strings are byte strings, and `len(prefix) > 0` at helm.go:145 counts bytes; the model uses sequences of characters. The flattener only tests for emptiness, concatenates, compares and appends the one-byte `.`, and these agree on bytes and on characters.
- Only `map[string]interface{}` and `[]interface{}` values are taken apart (helm.go:150-155). Any other Go value, such as a `[]string` or a `map[interface{}]interface{}`, falls into the default case at helm.go:156-157 and is stored whole. The model represents every such value as a `Leaf`.

=== FILE: decimal.dfy ===
/** Decimal rendering of array indices, as Go's `strconv.Itoa` does for
    non-negative integers. */
module Decimal {

  predicate IsDigit(c: char) {
    '0' <= c <= '9'
  }

  /** The character of a single decimal digit. */
  function Digit(d: nat): (c: char)
    requires d < 10
    ensures IsDigit(c)
    ensures c as int - '0' as int == d
  {
    (('0' as int) + d) as char
  }

  /** The canonical decimal form of `n`: at least one digit, and no leading
      zero unless the number itself is zero. */
  function Itoa(n: nat): (s: string)
    ensures |s| >= 1
    ensures forall i :: 0 <= i < |s| ==> IsDigit(s[i])
    ensures s[0] == '0' ==> n == 0
    decreases n
  {
    if n < 10 then [Digit(n)] else Itoa(n / 10) + [Digit(n % 10)]
  }

  /** The number a string of digits denotes, read most significant digit first. */
  function ParseDecimal(s: string): nat
    requires forall i :: 0 <= i < |s| ==> IsDigit(s[i])
    decreases |s|
  {
    if |s| == 0 then 0
    else
      assert IsDigit(s[|s| - 1]);
      10 * ParseDecimal(s[..|s| - 1]) + (s[|s| - 1] as int - '0' as int)
  }

  /** Reading back the rendered digits gives the index again. */
  lemma {:induction false} ParseItoa(n: nat)
    ensures ParseDecimal(Itoa(n)) == n
    decreases n
  {
    if n >= 10 {
      var s := Itoa(n / 10);
      assert (s + [Digit(n % 10)])[..|s|] == s;
      ParseItoa(n / 10);
    }
  }

  /** Distinct indices render to distinct strings. */
  lemma ItoaInjective(a: nat, b: nat)
    ensures Itoa(a) == Itoa(b) ==> a == b
  {
    ParseItoa(a);
    ParseItoa(b);
  }
}

=== FILE: flatten.dfy ===
/** The flattener: a nested values tree becomes one map keyed by dot-joined
    paths. `Flat` is the reference meaning (each entry's contribution, later
    entries overriding earlier ones); `FlattenKey` follows Go's `flattenKey`,
    writing into a destination map, and is proved to compute `Flat`. */
module Flatten {
  import opened Values
  import Decimal

  /** Different indices give different array paths below the same base. */
  lemma IndexKeyInjective(base: string)
    ensures forall i: nat, j: nat :: IndexKey(base, i) == IndexKey(base, j) ==> i == j
  {
    forall i: nat, j: nat | IndexKey(base, i) == IndexKey(base, j)
      ensures i == j
    {
      var a, b := IndexKey(base, i), IndexKey(base, j);
      assert Decimal.Itoa(i) == a[|base| + 1..];
      assert Decimal.Itoa(j) == b[|base| + 1..];
      Decimal.ItoaInjective(i, j);
    }
  }

  /** The elements of an array stored at `base`, written in index order. */
  function IndexedItems(base: string, items: seq<Value>): map<string, Value>
    decreases |items|
  {
    if |items| == 0 then map[]
    else
      var n := |items| - 1;
      IndexedItems(base, items[..n])[IndexKey(base, n) := items[n]]
  }

  /** Each element is stored whole at its index path, and nothing else is
      stored; so the array contributes exactly one path per element. */
  lemma {:induction false} IndexedItemsSpec(base: string, items: seq<Value>)
    ensures forall i :: 0 <= i < |items| ==>
      IndexKey(base, i) in IndexedItems(base, items) && IndexedItems(base, items)[IndexKey(base, i)] == items[i]
    ensures forall path :: path in IndexedItems(base, items) ==>
      exists i :: 0 <= i < |items| && path == IndexKey(base, i)
    ensures |IndexedItems(base, items)| == |items|
    decreases |items|
  {
    if |items| > 0 {
      var n := |items| - 1;
      var r0 := IndexedItems(base, items[..n]);
      IndexedItemsSpec(base, items[..n]);
      IndexKeyInjective(base);
      assert IndexKey(base, n) !in r0;
    }
  }

  /** What one entry of a map at `prefix` contributes to the flat map. */
  function FlatEntry(prefix: string, e: Entry): map<string, Value>
    decreases e
  {
    match e.val
    case Map(c) => Flat(Join(prefix, e.key), c)
    case Arr(items) => IndexedItems(Join(prefix, e.key), items)
    case Leaf(_) => map[Join(prefix, e.key) := e.val]
  }

  /** The flattening of a map at `prefix`: the entries' contributions in
      order, a later entry overriding an earlier one on a shared path. */
  function Flat(prefix: string, src: seq<Entry>): map<string, Value>
    decreases src
  {
    if |src| == 0 then map[]
    else Flat(prefix, src[..|src| - 1]) + FlatEntry(prefix, src[|src| - 1])
  }

  /** A path is present exactly when some entry contributes it. */
  lemma {:induction false} FlatKeys(prefix: string, src: seq<Entry>)
    ensures forall path :: path in Flat(prefix, src) <==>
      exists i :: 0 <= i < |src| && path in FlatEntry(prefix, src[i])
    decreases |src|
  {
    if |src| > 0 {
      var n := |src| - 1;
      FlatKeys(prefix, src[..n]);
      assert forall i :: 0 <= i < n ==> src[..n][i] == src[i];
    }
  }

  lemma UnionAssoc(a: map<string, Value>, b: map<string, Value>, c: map<string, Value>)
    ensures (a + b) + c == a + (b + c)
  {
  }

  lemma UnionUpdate(a: map<string, Value>, b: map<string, Value>, k: string, v: Value)
    ensures (a + b)[k := v] == a + b[k := v]
  {
  }

  lemma UpdateIsUnion(a: map<string, Value>, k: string, v: Value)
    ensures a[k := v] == a + map[k := v]
  {
  }

  /** Extending the visited prefix of `src` by one entry adds that entry's
      contribution. */
  lemma FlatSnoc(prefix: string, src: seq<Entry>, n: nat)
    requires n < |src|
    ensures Flat(prefix, src[..n + 1]) == Flat(prefix, src[..n]) + FlatEntry(prefix, src[n])
  {
    assert src[..n + 1][..n] == src[..n];
  }

  /** The array branch of Go's `flattenKey`: element `i` is written
      at `base.i`, in index order. */
  method StoreItems(base: string, items: seq<Value>, dest: map<string, Value>)
    returns (out: map<string, Value>)
    ensures out == dest + IndexedItems(base, items)
  {
    out := dest;
    var i := 0;
    while i < |items|
      invariant 0 <= i <= |items|
      invariant out == dest + IndexedItems(base, items[..i])
    {
      assert items[..i + 1][..i] == items[..i];
      UnionUpdate(dest, IndexedItems(base, items[..i]), IndexKey(base, i), items[i]);
      out := out[base + "." + Decimal.Itoa(i) := items[i]];
      i := i + 1;
    }
    assert items[..i] == items;
  }

  /** Go's `flattenKey`: walks the entries in order, recursing into
      nested maps, writing each array element at its index path and each
      scalar at its own path. */
  method FlattenKey(prefix: string, src: seq<Entry>, dest: map<string, Value>)
    returns (out: map<string, Value>)
    ensures out == dest + Flat(prefix, src)
    ensures forall path :: path in dest ==> path in out
    ensures forall path :: path in dest && path !in Flat(prefix, src) ==> out[path] == dest[path]
    decreases src
  {
    var p := if |prefix| > 0 then prefix + "." else prefix;
    out := dest;
    var n := 0;
    while n < |src|
      invariant 0 <= n <= |src|
      invariant out == dest + Flat(prefix, src[..n])
    {
      var e := src[n];
      var base := p + e.key;
      assert base == Join(prefix, e.key);
      match e.val {
        case Map(child) =>
          out := FlattenKey(base, child, out);
        case Arr(items) =>
          out := StoreItems(base, items, out);
        case Leaf(_) =>
          UpdateIsUnion(out, base, e.val);
          out := out[base := e.val];
      }
      FlatSnoc(prefix, src, n);
      UnionAssoc(dest, Flat(prefix, src[..n]), FlatEntry(prefix, e));
      n := n + 1;
    }
    assert src[..n] == src;
  }
}

=== FILE: flatten_examples.dfy ===
/** Worked inputs for the flattener, including the collisions that the
    well-keyed precondition rules out. */
module FlattenExamples {
  import opened Values
  import opened Flatten
  import Decimal

  lemma FlatOne(prefix: string, e: Entry)
    ensures Flat(prefix, [e]) == FlatEntry(prefix, e)
  {
  }

  lemma FlatTwo(prefix: string, e1: Entry, e2: Entry)
    ensures Flat(prefix, [e1, e2]) == FlatEntry(prefix, e1) + FlatEntry(prefix, e2)
  {
    assert [e1, e2][..1] == [e1];
    FlatOne(prefix, e1);
  }

  /** `{a: {b: {c: true}}}` flattens to `{"a.b.c": true}`. */
  lemma NestedMapsJoinKeys()
    ensures Flat("", [Entry("a", Map([Entry("b", Map([Entry("c", Leaf(Bool(true)))]))]))])
      == map["a.b.c" := Leaf(Bool(true))]
  {
    var c := Entry("c", Leaf(Bool(true)));
    var b := Entry("b", Map([c]));
    FlatOne("", Entry("a", Map([b])));
    FlatOne("a", b);
    FlatOne("a.b", c);
    assert Join("a", "b") == "a.b" && Join("a.b", "c") == "a.b.c";
  }

  /** `{x: [1, 2, 3]}` flattens to `{"x.0": 1, "x.1": 2, "x.2": 3}`. */
  lemma ArrayIsIndexed()
    ensures Flat("", [Entry("x", Arr([Leaf(Int(1)), Leaf(Int(2)), Leaf(Int(3))]))])
      == map["x.0" := Leaf(Int(1)), "x.1" := Leaf(Int(2)), "x.2" := Leaf(Int(3))]
  {
    var xs := [Leaf(Int(1)), Leaf(Int(2)), Leaf(Int(3))];
    FlatOne("", Entry("x", Arr(xs)));
    assert Decimal.Itoa(0) == "0" && Decimal.Itoa(1) == "1" && Decimal.Itoa(2) == "2";
    assert IndexKey("x", 0) == "x.0" && IndexKey("x", 1) == "x.1" && IndexKey("x", 2) == "x.2";
    assert xs[..2][..1][..0] == [];
    assert IndexedItems("x", xs[..2][..1]) == map["x.0" := Leaf(Int(1))];
    assert IndexedItems("x", xs[..2]) == map["x.0" := Leaf(Int(1)), "x.1" := Leaf(Int(2))];
  }

  /** `{a: [{b: 1}]}` flattens to `{"a.0": {b: 1}}`: a map inside an array
      is stored whole. */
  lemma ArrayElementsAreNotFlattened()
    ensures Flat("", [Entry("a", Arr([Map([Entry("b", Leaf(Int(1)))])]))])
      == map["a.0" := Map([Entry("b", Leaf(Int(1)))])]
  {
    var xs := [Map([Entry("b", Leaf(Int(1)))])];
    FlatOne("", Entry("a", Arr(xs)));
    assert Decimal.Itoa(0) == "0";
    assert IndexKey("a", 0) == "a.0";
    assert xs[..0] == [];
  }

  /** The empty key at the top level adds no path segment, so `{"": {b: 1}}`
      and a sibling `b: 2` both write the path "b", and the visiting order
      decides which value stays. */
  lemma EmptyKeyCollides()
    ensures Flat("", [Entry("", Map([Entry("b", Leaf(Int(1)))])), Entry("b", Leaf(Int(2)))])
      == map["b" := Leaf(Int(2))]
    ensures Flat("", [Entry("b", Leaf(Int(2))), Entry("", Map([Entry("b", Leaf(Int(1)))]))])
      == map["b" := Leaf(Int(1))]
  {
  }

  /** A key containing '.' collides with a nested path: `{"a.b": 1}` and
      `{a: {b: 2}}` both write "a.b". */
  lemma DottedKeyCollides()
    ensures Flat("", [Entry("a.b", Leaf(Int(1))), Entry("a", Map([Entry("b", Leaf(Int(2)))]))])
      == map["a.b" := Leaf(Int(2))]
    ensures Flat("", [Entry("a", Map([Entry("b", Leaf(Int(2)))])), Entry("a.b", Leaf(Int(1)))])
      == map["a.b" := Leaf(Int(1))]
  {
    var nested := Entry("a", Map([Entry("b", Leaf(Int(2)))]));
    var dotted := Entry("a.b", Leaf(Int(1)));
    FlatTwo("", dotted, nested);
    FlatTwo("", nested, dotted);
    FlatOne("a", Entry("b", Leaf(Int(2))));
    assert Join("a", "b") == "a.b";
  }
}

=== FILE: flatten_props.dfy ===
/** What the flat map holds: which paths are present, what each maps to,
    and when the result does not depend on the order the entries are
    visited in. */
module FlattenProps {
  import opened Values
  import opened Flatten
  import Decimal

  /** With entries visited in list order, a path takes the value of the last
      entry that writes it. */
  lemma {:induction false} FlatLastWriteWins(prefix: string, src: seq<Entry>, i: nat, path: string)
    requires i < |src|
    requires path in FlatEntry(prefix, src[i])
    requires forall j :: i < j < |src| ==> path !in FlatEntry(prefix, src[j])
    ensures path in Flat(prefix, src)
    ensures Flat(prefix, src)[path] == FlatEntry(prefix, src[i])[path]
    decreases |src|
  {
    var n := |src| - 1;
    if i < n {
      assert path !in FlatEntry(prefix, src[n]);
      FlatLastWriteWins(prefix, src[..n], i, path);
    }
  }

  /** A path at or below `Join(base, k)` is strictly below a non-empty
      `base`. */
  lemma UnderJoinIsBelow(path: string, base: string, k: string)
    requires |base| > 0
    requires Under(path, Join(base, k))
    ensures StrictlyUnder(path, base)
  {
  }

  /** Paths written for an entry lie at or below the entry's own path. */
  lemma {:induction false} FlatEntryUnder(prefix: string, e: Entry)
    requires WellKeyedEntry(e)
    ensures forall path :: path in FlatEntry(prefix, e) ==> Under(path, Join(prefix, e.key))
    ensures !e.val.Leaf? ==> forall path :: path in FlatEntry(prefix, e) ==> StrictlyUnder(path, Join(prefix, e.key))
    decreases e
  {
    var base := Join(prefix, e.key);
    match e.val {
      case Map(c) =>
        FlatUnder(base, c);
      case Arr(items) =>
        IndexedItemsSpec(base, items);
        forall path | path in FlatEntry(prefix, e)
          ensures StrictlyUnder(path, base)
        {
          var i :| 0 <= i < |items| && path == IndexKey(base, i);
          assert path[..|base|] == base;
        }
      case Leaf(_) =>
    }
  }

  /** Below a non-empty prefix, every written path continues the prefix
      with a '.'. */
  lemma {:induction false} FlatUnder(base: string, src: seq<Entry>)
    requires |base| > 0
    requires WellKeyed(src)
    ensures forall path :: path in Flat(base, src) ==> StrictlyUnder(path, base)
    decreases src
  {
    FlatKeys(base, src);
    forall path | path in Flat(base, src)
      ensures StrictlyUnder(path, base)
    {
      var i :| 0 <= i < |src| && path in FlatEntry(base, src[i]);
      FlatEntryUnder(base, src[i]);
      UnderJoinIsBelow(path, base, src[i].key);
    }
  }

  /** Two different plain keys of one map own disjoint sets of paths. */
  lemma SeparateBranches(prefix: string, k1: string, k2: string, path: string)
    requires PlainKey(k1) && PlainKey(k2) && k1 != k2
    requires Under(path, Join(prefix, k1))
    ensures !Under(path, Join(prefix, k2))
  {
    var q := if |prefix| > 0 then prefix + "." else "";
    var a, b := Join(prefix, k1), Join(prefix, k2);
    assert a == q + k1 && b == q + k2;
    assert path[..|a|] == a;
    if |k1| == |k2| {
      assert a[|q|..] == k1 && b[|q|..] == k2;
      assert a != b;
      assert path[..|b|] != b;
    } else if |k1| < |k2| {
      if |b| <= |path| {
        assert b[|a|] == k2[|k1|] != '.';
        assert path[|a|] == '.';
        assert path[..|b|] != b;
      }
    } else {
      assert path != b;
      assert path[|b|] == a[|b|] == k1[|k2|] != '.';
    }
  }

  /** In a well-keyed map every path an entry writes survives with the
      entry's value: no other entry writes the same path. */
  lemma FlatLookup(prefix: string, src: seq<Entry>, i: nat)
    requires WellKeyed(src)
    requires i < |src|
    ensures forall path :: path in FlatEntry(prefix, src[i]) ==>
      path in Flat(prefix, src) && Flat(prefix, src)[path] == FlatEntry(prefix, src[i])[path]
  {
    FlatEntryUnder(prefix, src[i]);
    forall path | path in FlatEntry(prefix, src[i])
      ensures path in Flat(prefix, src) && Flat(prefix, src)[path] == FlatEntry(prefix, src[i])[path]
    {
      forall j | i < j < |src|
        ensures path !in FlatEntry(prefix, src[j])
      {
        FlatEntryUnder(prefix, src[j]);
        SeparateBranches(prefix, src[i].key, src[j].key, path);
      }
      FlatLastWriteWins(prefix, src, i, path);
    }
  }

  /** In a well-keyed map a present path at or below an entry's own path
      was written by that entry. */
  lemma FlatOwner(prefix: string, src: seq<Entry>, i: nat)
    requires WellKeyed(src)
    requires i < |src|
    ensures forall path :: path in Flat(prefix, src) && Under(path, Join(prefix, src[i].key)) ==>
      path in FlatEntry(prefix, src[i])
  {
    FlatKeys(prefix, src);
    forall path | path in Flat(prefix, src) && Under(path, Join(prefix, src[i].key))
      ensures path in FlatEntry(prefix, src[i])
    {
      var j :| 0 <= j < |src| && path in FlatEntry(prefix, src[j]);
      FlatEntryUnder(prefix, src[j]);
      if j != i {
        SeparateBranches(prefix, src[j].key, src[i].key, path);
      }
    }
  }

  /** A scalar is stored unchanged at exactly its own path. */
  lemma ScalarPlacement(prefix: string, src: seq<Entry>, i: nat)
    requires WellKeyed(src)
    requires i < |src| && src[i].val.Leaf?
    ensures Join(prefix, src[i].key) in Flat(prefix, src)
    ensures Flat(prefix, src)[Join(prefix, src[i].key)] == src[i].val
    ensures forall path :: path in Flat(prefix, src) && Under(path, Join(prefix, src[i].key)) ==>
      path == Join(prefix, src[i].key)
  {
    FlatLookup(prefix, src, i);
    FlatOwner(prefix, src, i);
  }

  /** An array at path `p` yields exactly the paths `p.0`, `p.1`, ..., one
      per element, each holding its element whole: elements that are maps
      or arrays are not flattened further, and `p` itself is not stored. */
  lemma ArrayPlacement(prefix: string, src: seq<Entry>, i: nat)
    requires WellKeyed(src)
    requires i < |src| && src[i].val.Arr?
    ensures forall j :: 0 <= j < |src[i].val.items| ==>
      var path := IndexKey(Join(prefix, src[i].key), j);
      path in Flat(prefix, src) && Flat(prefix, src)[path] == src[i].val.items[j]
    ensures forall path :: path in Flat(prefix, src) && Under(path, Join(prefix, src[i].key)) ==>
      exists j :: 0 <= j < |src[i].val.items| && path == IndexKey(Join(prefix, src[i].key), j)
    ensures Join(prefix, src[i].key) !in Flat(prefix, src)
  {
    var base := Join(prefix, src[i].key);
    IndexedItemsSpec(base, src[i].val.items);
    FlatLookup(prefix, src, i);
    FlatOwner(prefix, src, i);
    FlatEntryUnder(prefix, src[i]);
  }

  /** An empty array writes nothing at or below its path. */
  lemma EmptyArrayWritesNothing(prefix: string, src: seq<Entry>, i: nat)
    requires WellKeyed(src)
    requires i < |src| && src[i].val == Arr([])
    ensures forall path :: path in Flat(prefix, src) ==> !Under(path, Join(prefix, src[i].key))
  {
    ArrayPlacement(prefix, src, i);
  }

  /** A nested map is flattened below its own path, which is extended by
      the key; the nested map itself is never stored as a value. */
  lemma MapPlacement(prefix: string, src: seq<Entry>, i: nat)
    requires WellKeyed(src)
    requires i < |src| && src[i].val.Map?
    ensures forall path :: path in Flat(Join(prefix, src[i].key), src[i].val.entries) ==>
      path in Flat(prefix, src) &&
      Flat(prefix, src)[path] == Flat(Join(prefix, src[i].key), src[i].val.entries)[path]
    ensures forall path :: path in Flat(prefix, src) && Under(path, Join(prefix, src[i].key)) ==>
      path in Flat(Join(prefix, src[i].key), src[i].val.entries)
    ensures Join(prefix, src[i].key) !in Flat(prefix, src)
  {
    FlatLookup(prefix, src, i);
    FlatOwner(prefix, src, i);
    FlatEntryUnder(prefix, src[i]);
  }

  /** Joining a plain key onto an empty or well-dotted prefix gives a
      well-dotted path: no leading '.' at the top level, exactly one '.'
      between prefix and key otherwise. */
  lemma JoinWellDotted(prefix: string, k: string)
    requires prefix == "" || WellDotted(prefix)
    requires PlainKey(k)
    ensures WellDotted(Join(prefix, k))
  {
  }

  /** An array index renders as a single path segment. */
  lemma IndexSegmentIsPlain(i: nat)
    ensures PlainKey(Decimal.Itoa(i))
  {
  }

  /** Every path written below an empty or well-dotted prefix is well
      dotted, and below a non-empty prefix it continues the prefix with one
      '.'. */
  lemma {:induction false} FlatWellDotted(prefix: string, src: seq<Entry>)
    requires prefix == "" || WellDotted(prefix)
    requires WellKeyed(src)
    ensures forall path :: path in Flat(prefix, src) ==> WellDotted(path)
    ensures |prefix| > 0 ==> forall path :: path in Flat(prefix, src) ==> StrictlyUnder(path, prefix)
    decreases src
  {
    FlatKeys(prefix, src);
    forall path | path in Flat(prefix, src)
      ensures WellDotted(path)
    {
      var i :| 0 <= i < |src| && path in FlatEntry(prefix, src[i]);
      FlatEntryWellDotted(prefix, src[i]);
    }
    if |prefix| > 0 {
      FlatUnder(prefix, src);
    }
  }

  lemma {:induction false} FlatEntryWellDotted(prefix: string, e: Entry)
    requires prefix == "" || WellDotted(prefix)
    requires WellKeyedEntry(e)
    ensures forall path :: path in FlatEntry(prefix, e) ==> WellDotted(path)
    decreases e
  {
    var base := Join(prefix, e.key);
    JoinWellDotted(prefix, e.key);
    match e.val {
      case Map(c) =>
        FlatWellDotted(base, c);
      case Arr(items) =>
        IndexedItemsSpec(base, items);
        forall path | path in FlatEntry(prefix, e)
          ensures WellDotted(path)
        {
          var i :| 0 <= i < |items| && path == IndexKey(base, i);
          IndexSegmentIsPlain(i);
          JoinWellDotted(base, Decimal.Itoa(i));
          assert path == Join(base, Decimal.Itoa(i));
        }
      case Leaf(_) =>
    }
  }

  /** Every scalar and every array element in a well-keyed tree is stored
      exactly once: the flat map has one path per leaf. */
  lemma {:induction false} FlatSize(prefix: string, src: seq<Entry>)
    requires WellKeyed(src)
    ensures |Flat(prefix, src)| == LeafCount(src)
    decreases src
  {
    if |src| > 0 {
      var n := |src| - 1;
      var init := src[..n];
      assert forall i :: 0 <= i < n ==> init[i] == src[i];
      assert WellKeyed(init);
      FlatSize(prefix, init);
      FlatEntrySize(prefix, src[n]);
      FlatKeys(prefix, init);
      FlatEntryUnder(prefix, src[n]);
      forall path | path in FlatEntry(prefix, src[n])
        ensures path !in Flat(prefix, init)
      {
        forall i | 0 <= i < n
          ensures path !in FlatEntry(prefix, init[i])
        {
          FlatEntryUnder(prefix, init[i]);
          SeparateBranches(prefix, src[n].key, init[i].key, path);
        }
      }
      var a, b := Flat(prefix, init), FlatEntry(prefix, src[n]);
      assert a.Keys !! b.Keys;
      assert (a + b).Keys == a.Keys + b.Keys;
    }
  }

  lemma {:induction false} FlatEntrySize(prefix: string, e: Entry)
    requires WellKeyedEntry(e)
    ensures |FlatEntry(prefix, e)| == EntryLeafCount(e)
    decreases e
  {
    match e.val {
      case Map(c) =>
        FlatSize(Join(prefix, e.key), c);
      case Arr(items) =>
        IndexedItemsSpec(Join(prefix, e.key), items);
      case Leaf(_) =>
    }
  }

  /** For a well-keyed map the order the entries are visited in does not
      matter: listing the same entries in any order flattens to the same
      map. */
  lemma FlatOrderIndependent(prefix: string, src: seq<Entry>, other: seq<Entry>)
    requires WellKeyed(src) && WellKeyed(other)
    requires forall e :: e in src <==> e in other
    ensures Flat(prefix, src) == Flat(prefix, other)
  {
    FlatKeys(prefix, src);
    FlatKeys(prefix, other);
    forall path | path in Flat(prefix, src)
      ensures path in Flat(prefix, other) && Flat(prefix, other)[path] == Flat(prefix, src)[path]
    {
      var i :| 0 <= i < |src| && path in FlatEntry(prefix, src[i]);
      assert src[i] in other;
      var j :| 0 <= j < |other| && other[j] == src[i];
      FlatLookup(prefix, src, i);
      FlatLookup(prefix, other, j);
    }
    forall path | path in Flat(prefix, other)
      ensures path in Flat(prefix, src)
    {
      var j :| 0 <= j < |other| && path in FlatEntry(prefix, other[j]);
      assert other[j] in src;
      var i :| 0 <= i < |src| && src[i] == other[j];
    }
  }

  /** Related array elements give related indexed paths: the same paths,
      holding related elements. */
  lemma {:induction false} IndexedItemsSameTree(base: string, xs: seq<Value>, ys: seq<Value>)
    requires |xs| == |ys|
    requires forall i :: 0 <= i < |xs| ==> SameTree(xs[i], ys[i])
    ensures IndexedItems(base, xs).Keys == IndexedItems(base, ys).Keys
    ensures forall path :: path in IndexedItems(base, xs) ==>
      SameTree(IndexedItems(base, xs)[path], IndexedItems(base, ys)[path])
  {
    IndexedItemsSpec(base, xs);
    IndexedItemsSpec(base, ys);
  }

  /** Two entries denoting the same Go value write the same paths, holding
      values that denote the same Go values. */
  lemma {:induction false} FlatEntrySameTree(prefix: string, e1: Entry, e2: Entry)
    requires WellKeyedEntry(e1) && WellKeyedEntry(e2)
    requires SameEntry(e1, e2)
    ensures FlatEntry(prefix, e1).Keys == FlatEntry(prefix, e2).Keys
    ensures forall path :: path in FlatEntry(prefix, e1) ==>
      SameTree(FlatEntry(prefix, e1)[path], FlatEntry(prefix, e2)[path])
    decreases e1
  {
    var base := Join(prefix, e1.key);
    match e1.val {
      case Map(x) =>
        FlatSameTree(base, x, e2.val.entries);
      case Arr(xs) =>
        IndexedItemsSameTree(base, xs, e2.val.items);
      case Leaf(_) =>
    }
  }

  /** In a list with distinct keys, the lookup of an entry's key finds that
      entry. */
  lemma IndexOfDistinct(y: seq<Entry>, j: int)
    requires DistinctKeys(y) && 0 <= j < |y|
    ensures IndexOf(y, y[j].key) == j
  {
  }

  /** A scalar denotes only itself. */
  lemma SameLeafIsEqual(a: Value, b: Value)
    requires a.Leaf? && SameTree(a, b)
    ensures b == a
  {
  }

  /** A path written by one entry reaches the result of the other listing
      through the matching entry. */
  lemma {:induction false} FlatSameTreeAt(prefix: string, src: seq<Entry>, other: seq<Entry>, i: nat, j: nat, path: string)
    requires WellKeyed(src) && WellKeyed(other)
    requires i < |src| && j < |other| && SameEntry(src[i], other[j])
    requires path in FlatEntry(prefix, src[i])
    ensures path in Flat(prefix, src) && path in Flat(prefix, other)
    ensures SameTree(Flat(prefix, src)[path], Flat(prefix, other)[path])
    decreases src, 0
  {
    FlatEntrySameTree(prefix, src[i], other[j]);
    FlatLookup(prefix, src, i);
    FlatLookup(prefix, other, j);
  }

  /** Flattening respects the order-free reading of maps at every level:
      two well-keyed listings of the same Go map, whose nested maps may also
      list their entries in other orders, write the same paths, holding
      values that denote the same Go values. */
  lemma {:induction false} FlatSameTree(prefix: string, src: seq<Entry>, other: seq<Entry>)
    requires WellKeyed(src) && WellKeyed(other)
    requires SameEntries(src, other)
    ensures Flat(prefix, src).Keys == Flat(prefix, other).Keys
    ensures forall path :: path in Flat(prefix, src) ==>
      SameTree(Flat(prefix, src)[path], Flat(prefix, other)[path])
    decreases src, 1
  {
    var a, b := Flat(prefix, src), Flat(prefix, other);
    FlatKeys(prefix, src);
    FlatKeys(prefix, other);
    forall path | path in a
      ensures path in b && SameTree(a[path], b[path])
    {
      var i :| 0 <= i < |src| && path in FlatEntry(prefix, src[i]);
      var j := IndexOf(other, src[i].key);
      FlatSameTreeAt(prefix, src, other, i, j, path);
    }
    forall path | path in b
      ensures path in a
    {
      var j :| 0 <= j < |other| && path in FlatEntry(prefix, other[j]);
      var i := IndexOf(src, other[j].key);
      IndexOfDistinct(other, j);
      FlatEntrySameTree(prefix, src[i], other[j]);
    }
  }

  /** When arrays hold scalars only, the flat map is the same whichever
      order each map, nested or not, is visited in. */
  lemma {:induction false} FlatOrderIndependentDeep(prefix: string, src: seq<Entry>, other: seq<Entry>)
    requires WellKeyed(src) && WellKeyed(other)
    requires ScalarArrays(src)
    requires SameEntries(src, other)
    ensures Flat(prefix, src) == Flat(prefix, other)
  {
    var a, b := Flat(prefix, src), Flat(prefix, other);
    FlatSameTree(prefix, src, other);
    FlatScalarValues(prefix, src);
    forall path | path in a
      ensures b[path] == a[path]
    {
      SameLeafIsEqual(a[path], b[path]);
    }
  }

  /** When every array holds scalars only, every stored value is a scalar:
      no map or array of the tree is ever stored as a value. */
  lemma {:induction false} FlatScalarValues(prefix: string, src: seq<Entry>)
    requires ScalarArrays(src)
    ensures forall path :: path in Flat(prefix, src) ==> Flat(prefix, src)[path].Leaf?
    decreases src
  {
    if |src| > 0 {
      var n := |src| - 1;
      var init := src[..n];
      assert forall i :: 0 <= i < n ==> init[i] == src[i];
      FlatScalarValues(prefix, init);
      FlatEntryScalarValues(prefix, src[n]);
    }
  }

  lemma {:induction false} FlatEntryScalarValues(prefix: string, e: Entry)
    requires ScalarArraysEntry(e)
    ensures forall path :: path in FlatEntry(prefix, e) ==> FlatEntry(prefix, e)[path].Leaf?
    decreases e
  {
    match e.val {
      case Map(c) =>
        FlatScalarValues(Join(prefix, e.key), c);
      case Arr(items) =>
        IndexedItemsSpec(Join(prefix, e.key), items);
      case Leaf(_) =>
    }
  }

  /** A one-level map of scalars flattens to itself from the empty prefix,
      whatever its keys look like. */
  lemma {:induction false} FlatOfFlatIsIdentity(es: seq<Entry>)
    requires DistinctKeys(es)
    requires forall i :: 0 <= i < |es| ==> es[i].val.Leaf?
    ensures forall path :: path in Flat("", es) <==> exists i :: 0 <= i < |es| && es[i].key == path
    ensures forall i :: 0 <= i < |es| ==> Flat("", es)[es[i].key] == es[i].val
  {
    assert forall i :: 0 <= i < |es| ==> FlatEntry("", es[i]) == map[es[i].key := es[i].val];
    FlatKeys("", es);
    forall i | 0 <= i < |es|
      ensures es[i].key in Flat("", es) && Flat("", es)[es[i].key] == es[i].val
    {
      FlatLastWriteWins("", es, i, es[i].key);
    }
  }

  /** Flattening is idempotent on trees whose arrays hold scalars: feeding
      the flat map back in, listed in any order, reproduces it. */
  lemma {:induction false} ReflattenIsNoOp(src: seq<Entry>, es: seq<Entry>)
    requires ScalarArrays(src)
    requires DistinctKeys(es)
    requires forall i :: 0 <= i < |es| ==>
      es[i].key in Flat("", src) && es[i].val == Flat("", src)[es[i].key]
    requires forall path :: path in Flat("", src) ==> exists i :: 0 <= i < |es| && es[i].key == path
    ensures Flat("", es) == Flat("", src)
  {
    FlatScalarValues("", src);
    FlatOfFlatIsIdentity(es);
  }
}

=== FILE: helm.dfy ===
/** The Helm facade of the API server: chart versions, chart values and the
    configured chart repositories. The chart helper's and the cluster
    client's answers are inputs, each either a result or the collaborator's
    error. */
module Helm {
  import opened Wrappers
  import opened Values
  import opened Flatten

  /** An error raised by the chart helper or the cluster client; opaque here. */
  datatype Cause = Cause(message: string)

  /** The domain error codes chart failures are reported with. */
  datatype Code = ErrListHelmVersions | ErrChartNotExist | ErrGetChartValues

  /** A facade failure: a domain code (the collaborator's error is dropped),
      or a cluster error handed back unchanged. */
  datatype Failure = Coded(code: Code) | Passed(cause: Cause)

  /** A stored repository registration: the secret's name and its data. */
  datatype Secret = Secret(name: string, data: map<string, string>)

  datatype ChartRepoResponse = ChartRepoResponse(url: string, secretName: string)

  datatype ChartRepoResponseList = ChartRepoResponseList(responses: seq<ChartRepoResponse>)

  /** The repository URL a registration carries; a registration without a
      "url" entry reads as the empty string. */
  function RepoUrl(s: Secret): string {
    if "url" in s.data then s.data["url"] else ""
  }

  function ToResponse(s: Secret): ChartRepoResponse {
    ChartRepoResponse(RepoUrl(s), s.name)
  }

  /** Chart versions: a helper failure and an empty version list are two
      different errors; otherwise the helper's list is returned as is, so a
      successful answer is never empty. */
  function ListChartVersions<V>(fetched: Result<seq<V>, Cause>): (r: Result<seq<V>, Failure>)
    ensures fetched.Failure? <==> r == Failure(Coded(ErrListHelmVersions))
    ensures fetched == Success([]) <==> r == Failure(Coded(ErrChartNotExist))
    ensures fetched.Success? && |fetched.value| > 0 ==> r == Success(fetched.value)
    ensures r.Success? ==> fetched == Success(r.value) && |r.value| > 0
  {
    match fetched
    case Failure(_) => Failure(Coded(ErrListHelmVersions))
    case Success(versions) =>
      if |versions| == 0 then Failure(Coded(ErrChartNotExist)) else Success(versions)
  }

  /** Chart values: a helper failure becomes `ErrGetChartValues`; otherwise
      the values tree is flattened from the empty prefix into a fresh map. */
  method GetChartValues(fetched: Result<seq<Entry>, Cause>) returns (r: Result<map<string, Value>, Failure>)
    ensures fetched.Failure? <==> r == Failure(Coded(ErrGetChartValues))
    ensures fetched.Success? ==> r == Success(Flat("", fetched.value))
  {
    match fetched {
      case Failure(_) =>
        r := Failure(Coded(ErrGetChartValues));
      case Success(v) =>
        var res := FlattenKey("", v, map[]);
        assert map[] + Flat("", v) == Flat("", v);
        r := Success(res);
    }
  }

  /** Appends one response per registration, in the registrations' order. */
  method AppendResponses(res: seq<ChartRepoResponse>, items: seq<Secret>) returns (out: seq<ChartRepoResponse>)
    ensures |out| == |res| + |items|
    ensures out[..|res|] == res
    ensures forall i :: 0 <= i < |items| ==> out[|res| + i] == ToResponse(items[i])
  {
    out := res;
    var n := 0;
    while n < |items|
      invariant 0 <= n <= |items|
      invariant |out| == |res| + n
      invariant out[..|res|] == res
      invariant forall i :: 0 <= i < n ==> out[|res| + i] == ToResponse(items[i])
    {
      out := out + [ToResponse(items[n])];
      n := n + 1;
    }
  }

  /** Chart repositories: the project's registrations (only when a project
      is named), then the global ones, each in listing order. A listing
      error is returned unchanged; the global listing is not consulted once
      the project listing failed. */
  method ListChartRepo(
    projectName: string,
    projectSecrets: Result<seq<Secret>, Cause>,
    globalSecrets: Result<seq<Secret>, Cause>
  ) returns (r: Result<ChartRepoResponseList, Failure>)
    ensures |projectName| > 0 && projectSecrets.Failure? ==>
      r == Failure(Passed(projectSecrets.error))
    ensures (|projectName| == 0 || projectSecrets.Success?) && globalSecrets.Failure? ==>
      r == Failure(Passed(globalSecrets.error))
    ensures r.Success? <==> (|projectName| == 0 || projectSecrets.Success?) && globalSecrets.Success?
    ensures r.Success? && |projectName| > 0 ==>
      var scoped, global, out := projectSecrets.value, globalSecrets.value, r.value.responses;
      && |out| == |scoped| + |global|
      && (forall i :: 0 <= i < |scoped| ==> out[i] == ToResponse(scoped[i]))
      && (forall j :: 0 <= j < |global| ==> out[|scoped| + j] == ToResponse(global[j]))
    ensures r.Success? && |projectName| == 0 ==>
      var global, out := globalSecrets.value, r.value.responses;
      && |out| == |global|
      && (forall j :: 0 <= j < |global| ==> out[j] == ToResponse(global[j]))
  {
    var res: seq<ChartRepoResponse> := [];
    if |projectName| != 0 {
      if projectSecrets.Failure? {
        return Failure(Passed(projectSecrets.error));
      }
      res := AppendResponses(res, projectSecrets.value);
    }
    if globalSecrets.Failure? {
      return Failure(Passed(globalSecrets.error));
    }
    res := AppendResponses(res, globalSecrets.value);
    r := Success(ChartRepoResponseList(res));
  }
}

=== FILE: values.dfy ===
/** The chart-values tree that Helm hands back, and the dot-joined key paths
    the flattener writes. A Go `map[string]interface{}` is an association
    list of entries; Go maps have distinct keys, which `DistinctKeys` states. */
module Values {
  import Decimal

  /** A leaf of the values tree. The flattener never looks inside a scalar. */
  datatype Scalar = Null | Bool(b: bool) | Int(i: int) | Str(s: string)

  /** A node of the values tree: a nested map, an array, or a scalar. */
  datatype Value =
    | Map(entries: seq<Entry>)
    | Arr(items: seq<Value>)
    | Leaf(scalar: Scalar)

  /** One key/value pair of a map. */
  datatype Entry = Entry(key: string, val: Value)

  predicate DistinctKeys(src: seq<Entry>) {
    forall i, j :: 0 <= i < j < |src| ==> src[i].key != src[j].key
  }

  /** A key that forms exactly one path segment: non-empty and dot-free. */
  predicate PlainKey(k: string) {
    |k| > 0 && forall i :: 0 <= i < |k| ==> k[i] != '.'
  }

  /** Distinct plain keys at every level of nested maps. Arrays are not
      descended into by the flattener, so their contents are unconstrained. */
  predicate WellKeyed(src: seq<Entry>)
    decreases src
  {
    && DistinctKeys(src)
    && forall i :: 0 <= i < |src| ==> WellKeyedEntry(src[i])
  }

  predicate WellKeyedEntry(e: Entry)
    decreases e
  {
    && PlainKey(e.key)
    && (e.val.Map? ==> WellKeyed(e.val.entries))
  }

  /** Every array reachable through nested maps holds only scalars. */
  predicate ScalarArrays(src: seq<Entry>)
    decreases src
  {
    forall i :: 0 <= i < |src| ==> ScalarArraysEntry(src[i])
  }

  predicate ScalarArraysEntry(e: Entry)
    decreases e
  {
    match e.val
    case Map(c) => ScalarArrays(c)
    case Arr(xs) => forall j :: 0 <= j < |xs| ==> xs[j].Leaf?
    case Leaf(_) => true
  }

  /** The path of key `k` below `prefix`: the empty prefix adds no segment
      separator, any other prefix is followed by one '.'. */
  function Join(prefix: string, k: string): string {
    if |prefix| > 0 then prefix + "." + k else k
  }

  /** The path of element `i` of an array stored at `base`. */
  function IndexKey(base: string, i: nat): string {
    base + "." + Decimal.Itoa(i)
  }

  /** `path` lies strictly below `base`: it continues `base` with a '.'. */
  predicate StrictlyUnder(path: string, base: string) {
    |base| < |path| && path[..|base|] == base && path[|base|] == '.'
  }

  /** `path` is `base` itself or lies below it. */
  predicate Under(path: string, base: string) {
    path == base || StrictlyUnder(path, base)
  }

  /** A non-empty dot-joined sequence of non-empty segments: no leading or
      trailing '.', and no two '.' in a row. */
  predicate WellDotted(path: string) {
    && |path| > 0
    && path[0] != '.'
    && path[|path| - 1] != '.'
    && forall i :: 0 <= i < |path| - 1 ==> !(path[i] == '.' && path[i + 1] == '.')
  }

  /** The number of values the flattener stores for a map: one per scalar
      reached through nested maps, one per array element. */
  function LeafCount(src: seq<Entry>): nat
    decreases src
  {
    if |src| == 0 then 0
    else LeafCount(src[..|src| - 1]) + EntryLeafCount(src[|src| - 1])
  }

  function EntryLeafCount(e: Entry): nat
    decreases e
  {
    match e.val
    case Map(c) => LeafCount(c)
    case Arr(xs) => |xs|
    case Leaf(_) => 1
  }

  /** Two trees that denote the same Go value: maps with the same entries up
      to order (at every level), arrays with related elements position by
      position, and equal scalars. */
  predicate SameTree(a: Value, b: Value)
    decreases a
  {
    match a
    case Map(x) => b.Map? && SameEntries(x, b.entries)
    case Arr(xs) =>
      && b.Arr? && |xs| == |b.items|
      && forall i :: 0 <= i < |xs| ==> SameTree(xs[i], b.items[i])
    case Leaf(_) => b == a
  }

  /** The position of the first entry with key `k`, or -1 when there is none. */
  function IndexOf(y: seq<Entry>, k: string): (r: int)
    ensures -1 <= r < |y|
    ensures r >= 0 ==> y[r].key == k
    ensures r < 0 ==> forall j :: 0 <= j < |y| ==> y[j].key != k
    decreases |y|
  {
    if |y| == 0 then -1
    else if y[0].key == k then 0
    else
      var r := IndexOf(y[1..], k);
      if r < 0 then -1 else r + 1
  }

  /** The same keys in both lists, each entry of `x` matching the entry of
      `y` under its key. */
  predicate SameEntries(x: seq<Entry>, y: seq<Entry>)
    decreases x
  {
    && (forall i :: 0 <= i < |x| ==> 0 <= IndexOf(y, x[i].key) && SameEntry(x[i], y[IndexOf(y, x[i].key)]))
    && (forall j :: 0 <= j < |y| ==> 0 <= IndexOf(x, y[j].key))
  }

  predicate SameEntry(e1: Entry, e2: Entry)
    decreases e1
  {
    e1.key == e2.key && SameTree(e1.val, e2.val)
  }
}

=== FILE: wrappers.dfy ===
/** Success/Failure results, used for the error returns of the Helm facade. */
module Wrappers {

  /** Either a value or an error, in place of Go's `(value, error)` pair. */
  datatype Result<+R, +E> = Success(value: R) | Failure(error: E)
}
